=== FILE: README.md ===
# Re-ranking recommendation candidates with a language model

`RAGReRankingService.rerank` (backend/app/services/rag_service.py) takes the
candidates a vector search returned, a user's free-text context and a count
`top_k`. It shows the first fifty candidates to a chat model as numbered
lines, asks for the best `top_k` numbers as a comma-separated list, parses the
reply into subset indices, reorders the subset by them and tops the result up
in prior order. When anything in the exchange raises, it returns the first
`top_k` of the original list instead.

This project models that path as pure Dafny functions and proves what the
code promises about it:

- `wrappers.dfy` (`Wrappers`) holds the `Option` type. The model's oracle is an
  `Option<string>`: `Some(text)` is the reply's content and `None` stands for
  any exception inside the `try` block.
- `pystr.dfy` (`PyStr`) holds the Python string built-ins the code relies on:
  `str.strip()` with Python's whitespace set, `replace(' ', '')`, `split(',')`,
  `join`, ASCII `isdigit`, `int` and `str` on naturals, and slicing. It also
  proves the lemmas about them that the parse needs.
- `candidates.dfy` (`Candidates`) is a candidate record with its
  `metadata.get('title', 'Unknown')` and `metadata.get('description', '')` lookups.
- `prompt.dfy` (`Prompt`) covers the subset of at most fifty candidates, the
  numbered item lines (descriptions cut to 150 characters) and
  `_build_ranking_prompt`.
- `rankings.dfy` (`Rankings`) covers `_parse_rankings`: the tokens, the in-range
  1-based numbers converted to 0-based indices, and the fixed fallback
  `range(min(10, max_index))`.
- `reorder.dfy` (`Reorder`) covers the reorder loop over `rankings[:top_k]`
  and the fill loop. It also gives a reference definition (`Novel`) of what the
  fill appends.
- `rerank.dfy` (`RerankService`) covers `rerank` itself and the prompt it would send.
- `scenarios.dfy` (`Scenarios`) holds concrete replies and their outcomes.

Some of this behaviour may look unintended; the model follows the code as
written:

- The reorder keeps duplicates. A reply `"1,1"` puts the first candidate in
  the result twice.
- The parse fallback is always the first `min(10, max_index)` indices, not
  `top_k` of them.
- A failed call returns the first `top_k` of the FULL list, which can exceed
  fifty candidates.
- Membership in the fill loop is equality of whole candidates, as Python's
  `in` on a list of dicts is. It is not identity by `id`.

## Model

| member | source | states |
|---|---|---|
| Prompt.CandidateSubset | backend/app/services/rag_service.py:37 | the subset is a prefix of the candidates, at most 50 long, the whole list when it has at most 50, and exactly 50 otherwise |
| Prompt.Excerpt | backend/app/services/rag_service.py:43 | a description excerpt is the prefix of the description of length min(its length, 150), so the whole description when it is short enough |
| RerankService.ItemNumberNamesLine | backend/app/services/rag_service.py:41-45 | line i of the item list opens with `str(i + 1)` and ". ", and the parser reads that numeral back as index i, so the number shown and the index parsed agree |
| Prompt.ItemsTextLines | backend/app/services/rag_service.py:40-46 | when titles and excerpts have no line break, the joined item text splits back into exactly those lines, one per candidate |
| Prompt.RankingPrompt | backend/app/services/rag_service.py:83-92 | the prompt is the head, the context, the items intro, the item text, the instruction, the decimal `top_k` and the tail, each at its fixed place, and its length is the sum of the parts |
| Prompt.PromptItemBlock | backend/app/services/rag_service.py:83-88 | the text between a prompt's items intro and its instruction is exactly the item text it was built from |
| Prompt.PromptDeterminesTopK | backend/app/services/rag_service.py:90 | two prompts that differ only in `top_k` are equal only when the `top_k` values are equal |
| Prompt.PromptDeterminesContext | backend/app/services/rag_service.py:85 | two prompts that differ only in context are equal only when the contexts are equal |
| RerankService.EmptyNeedsNoOracle | backend/app/services/rag_service.py:32-33 | an empty candidate list builds no request and gives the empty result whatever the reply would have been, so the oracle is never consulted |
| RerankService.RequestShowsFirstFifty | backend/app/services/rag_service.py:37-48 | when no title or excerpt holds a line break, the item block of the request splits into exactly min(n, 50) lines, line i showing the first-fifty candidate i under the number i + 1; candidates past the fiftieth never appear |
| RerankService.Rerank | backend/app/services/rag_service.py:20-81 | an empty list gives []; a failed call gives candidates[:top_k] of the full list; the result never exceeds `top_k`; with a reply, every result member is one of the first fifty candidates |
| RerankService.RerankFollowsRankings | backend/app/services/rag_service.py:61-73 | with a reply, the first min(top_k, number of parsed indices) results are the subset members those indices name, in order; the rest are the not-yet-present subset members in prior order, up to `top_k` |
| RerankService.RerankHead | backend/app/services/rag_service.py:64-73 | with a reply, the first min(top_k, number of parsed indices) results are the subset members those indices name, in order |
| RerankService.RankingsOfReply | backend/app/services/rag_service.py:58-61 | a reply in the requested format, stripped and parsed against the subset, gives back the indices it was written from |
| RerankService.RerankLength | backend/app/services/rag_service.py:64-73 | with no repeated candidate in the subset, the result holds between min(top_k, subset size) and `top_k` candidates |
| RerankService.RerankFollowsReply | backend/app/services/rag_service.py:58-67 | a reply in the requested comma-separated format puts the candidates it numbers first, in its order |
| RerankService.ItemNumberSelectsItem | backend/app/services/rag_service.py:41-67 | the number shown before item i in the prompt, sent back alone, makes candidate i the first result |
| RerankService.RerankFullOrder | backend/app/services/rag_service.py:64-73 | a reply that orders every candidate of a list of at most fifty, with `top_k` at least the list's length, returns exactly that order |
| RerankService.RerankSingleRanking | backend/app/services/rag_service.py:64-73 | when the parsed rankings are just [0] and candidates do not repeat, the result is the subset's first `top_k` in prior order |
| RerankService.RerankDistinct | backend/app/services/rag_service.py:64-73 | a subset without repeats and parsed rankings without repeats give a result without repeats |
| RerankService.RerankUnparseable | backend/app/services/rag_service.py:61-73 | a reply none of whose tokens names an in-range number gives the subset's first `top_k` in prior order, when the subset has no repeats |
| RerankService.StripRankingReply | backend/app/services/rag_service.py:58 | stripping a reply in the requested format leaves it unchanged |
| Rankings.TokenIndex | backend/app/services/rag_service.py:100-104 | a token yields index i if and only if i is below `max_index` and the stripped token is a digit string whose value is i + 1; leading zeros are accepted |
| Rankings.LeadingZeroToken | backend/app/services/rag_service.py:101-102 | a digit token with a `0` in front names the same index as the token, as `int("01") == 1` |
| PyStr.LeadingZeroValue | backend/app/services/rag_service.py:102 | a leading zero does not change the value of a digit string |
| Scenarios.TokenLeadingZero | backend/app/services/rag_service.py:100-104 | the token "01" names the first of three candidates |
| Rankings.CollectIndices | backend/app/services/rag_service.py:98-104 | the collected indices are all below `max_index`, and there are at most as many as tokens |
| RerankService.FallbackPicksLeading | backend/app/services/rag_service.py:106 | reordering the subset by the fallback indices picks its first min(10, subset size) candidates in prior order |
| Rankings.Tokens | backend/app/services/rag_service.py:99 | the tokens, joined back with commas, are the reply with its spaces removed, and no token contains a comma or a space, so they are exactly the comma-separated pieces of the space-free reply |
| Rankings.TokensOfJoin | backend/app/services/rag_service.py:99 | a space-free reply written as comma-joined comma-free parts tokenises back into those parts |
| Rankings.ParseRankings | backend/app/services/rag_service.py:94-110 | every parsed index is below `max_index` on both paths, and the result is empty exactly when `max_index` is 0 |
| Rankings.ParseRankingReply | backend/app/services/rag_service.py:99-106 | a reply written from non-empty in-range indices as comma-separated 1-based numbers parses back to exactly those indices, order and repetitions included |
| Rankings.ParseFallsBack | backend/app/services/rag_service.py:101-106 | when no token names an in-range index, the result is exactly range(min(10, max_index)) |
| Rankings.CollectIndicesAppend | backend/app/services/rag_service.py:99-104 | collection is token by token: the indices from concatenated token lists are the concatenated indices, so order and duplicates are kept |
| Rankings.NamedIndexIsKept | backend/app/services/rag_service.py:99-106 | every index a token names appears in the parse result |
| Rankings.ParsedIndexIsNamed | backend/app/services/rag_service.py:99-106 | every index in the parse result is named by some token, or else no token names any index and the index is a fallback position |
| Rankings.NumeralToken | backend/app/services/rag_service.py:100-104 | the decimal numeral of n names index n-1 when 1 <= n <= max_index, and names nothing otherwise (0 included) |
| Rankings.NonNumericToken | backend/app/services/rag_service.py:100-101 | a token starting with neither whitespace nor a digit names nothing |
| Rankings.NumeralNamesIndex | backend/app/services/rag_service.py:100-104 | the decimal numeral of i+1 is a token that names index i whenever i is below `max_index` |
| Rankings.ParseIgnoresSurroundingWhitespace | backend/app/services/rag_service.py:58-61 | parsing the stripped reply gives the same indices as parsing the unstripped reply |
| Reorder.Pick | backend/app/services/rag_service.py:65-67 | picking keeps only subset members, never yields more than the ranks given, and when every rank is in range, yields subset[ranks[j]] at position j |
| Reorder.ReorderByRankings | backend/app/services/rag_service.py:64-67 | the reordered list has at most `top_k` subset members, and for in-range rankings it is subset[rankings[j]] for the first min(top_k, number of rankings) j |
| Reorder.FillFrom | backend/app/services/rag_service.py:71-73 | the fill keeps what is there as a prefix, never passes `top_k`, appends only pool members not already present, and stops short of `top_k` only when every pool member is present |
| Reorder.Fill | backend/app/services/rag_service.py:70-73 | the same as the fill loop, and a list already at `top_k` is returned unchanged |
| Reorder.FillFromIsNovelPrefix | backend/app/services/rag_service.py:70-73 | the fill appends exactly the first top_k-|acc| pool members not yet seen, at their first occurrence and in pool order |
| Reorder.NovelIsFresh | backend/app/services/rag_service.py:72 | what the fill can append is drawn from the pool, new to the list, and free of repeats |
| Reorder.FillCoveredIsNoop | backend/app/services/rag_service.py:70-73 | once every subset member is present, the fill adds nothing |
| Reorder.ReorderFullOrder | backend/app/services/rag_service.py:64-73 | rankings that permute the whole subset are followed exactly, with nothing filled |
| Reorder.ReorderFillDistinct | backend/app/services/rag_service.py:64-73 | a subset without repeats and rankings without repeats give a reordered and filled list without repeats |
| Reorder.FillLength | backend/app/services/rag_service.py:70-73 | with no repeated subset member, the filled list holds at least min(top_k, subset size) members |
| PyStr.Strip | backend/app/services/rag_service.py:58 | the stripped text is never longer than the original and neither starts nor ends with whitespace |
| PyStr.StripSplitsOff | backend/app/services/rag_service.py:58 | the original text is the stripped text with whitespace-only text on either side |
| PyStr.RemoveSpaces | backend/app/services/rag_service.py:99 | removing spaces leaves no space and keeps every other character; with `PyStr.RemoveSpacesAppend` this fixes the result as the input with each ' ' dropped, in order and with counts kept |
| PyStr.RemoveSpacesAppend | backend/app/services/rag_service.py:99 | removing spaces distributes over concatenation, so it works character by character in order |
| PyStr.Split | backend/app/services/rag_service.py:99 | a split has at least one part, and no part contains the separator; with `PyStr.JoinSplit` this fixes the parts as `str.split(sep)` |
| PyStr.JoinSplit | backend/app/services/rag_service.py:99 | joining the parts of a split with the separator gives back the text, so the parts are the separator-free pieces of the text in order |
| PyStr.SplitJoin | backend/app/services/rag_service.py:46 | splitting a join at its separator gives back the parts when no part contains the separator |
| PyStr.NatToString | backend/app/services/rag_service.py:44 | the decimal numeral of a natural is a digit string without a leading zero |
| PyStr.NatToStringRoundTrip | backend/app/services/rag_service.py:102 | `int(str(n)) == n` for every natural n |
| PyStr.DigitsValueRoundTrip | backend/app/services/rag_service.py:101-102 | a digit string without a leading zero is the numeral of its value |
| PyStr.SplitWithWhitespaceEdges | backend/app/services/rag_service.py:99-100 | whitespace around a text changes only the first and last parts of a split, and stripping the parts undoes the change |
| Scenarios.Ex312 | backend/app/services/rag_service.py:94-106 | the reply "3,1,2" with three candidates parses to [2, 0, 1] |
| Scenarios.ExAbc | backend/app/services/rag_service.py:94-106 | the reply "abc,,5,1" with three candidates parses to [0] |
| Scenarios.ParseSpaceInsideNumber | backend/app/services/rag_service.py:99-104 | the reply "1 0" is read as 10 and gives [9] when at least ten candidates are shown |
| Scenarios.ParseOutOfRangeReply | backend/app/services/rag_service.py:103-106 | the reply "5" with three candidates names nothing and falls back to [0, 1, 2] |
| Scenarios.ParseZeroReply | backend/app/services/rag_service.py:102-106 | the reply "0" names no candidate and falls back |
| Scenarios.ParseRepeatedNumber | backend/app/services/rag_service.py:99-104 | the reply "1,1" parses to [0, 0] |
| Scenarios.RerankThreeOneTwo | backend/app/services/rag_service.py:58-73 | with three candidates and the reply "3,1,2", the result is the third, first, then second candidate |
| Scenarios.RerankAbcReply | backend/app/services/rag_service.py:58-73 | with three distinct candidates and the reply "abc,,5,1", the result is the first `top_k` in prior order |
| Scenarios.RerankRepeatsCandidate | backend/app/services/rag_service.py:64-67 | the reply "1,1" puts the first candidate in the first two result places |
| Scenarios.RerankShortWithRepeatedCandidate | backend/app/services/rag_service.py:64-73 | two equal candidates and the reply "1" give one result although `top_k` is 2 |
| Scenarios.FailureReturnsBeyondFifty | backend/app/services/rag_service.py:78-81 | a failed call with 60 candidates and `top_k` 60 returns all 60 |

## Left out

- The chat-completion call (model name, temperature 0.3, `max_tokens` 150, the API key) is not modelled. Its reply is a parameter of `RerankService.Rerank`, and any exception it raises is `None`.
- The context is not a parameter of `RerankService.Rerank`. It only reaches the prompt, which `RerankService.OracleRequest` models.
- `explain_recommendation` and the service constructor are outside the re-ranking path, so they are not part of this model. The same goes for logging, environment loading and `async`.
- Candidate records whose fields are not strings are not modelled: the model's metadata is a string-to-string map. In the code, a record whose 'metadata' entry is None fails at `.get` (line 42), and a description that cannot be sliced, such as None or a number, fails at `[:150]` (line 43). Both raise inside the `try` block, so they end in the failure result that `RerankService.Rerank` gives for `None`. A title of any other type raises nothing: the f-string at line 44 renders it, None as "None".
- `isdigit` is modelled for ASCII digits only, and `int` on digit strings of any length. Two routes lead into the exception branch of `_parse_rankings` (lines 108-110), and the model follows neither. First, Python's `isdigit` also accepts non-ASCII digits that `int` rejects, such as the superscript '²'. Second, `int` rejects a decimal string of more than 4300 digits (the default limit of current CPython releases). The second route cannot occur under the 150-token cap on the reply (line 55), but the model's reply is unconstrained. When the branch is reached it discards every index collected so far and returns `range(min(10, max_index))`. For the reply "7,²" or "7," followed by 4301 nines, with 20 candidates and `top_k` 5, the code returns the first five candidates. The model skips '²', or reads the long number as out of range, and returns the seventh candidate followed by the first four.
- `top_k` is a natural number. Negative values, which Python slicing treats as counting from the end, are not modelled.
- `top_k`'s default value of 10 (line 20) is not modelled: the model always takes `top_k` as an argument.
- RerankService.RerankLength: the lower bound min(top_k, subset size) is stated only for subsets without repeated candidates. The code does not deduplicate, and `Scenarios.RerankShortWithRepeatedCandidate` shows the bound failing with repeats.
- RerankService.RerankDistinct: freedom from repeats is stated only for distinct subsets and distinct parsed rankings. The code keeps repeated reply numbers, as `Scenarios.RerankRepeatsCandidate` shows.
- The vector search, the HTTP API, the data models, the feedback service, the tests and the frontend are outside the re-ranking core.

=== FILE: candidates.dfy ===
/** The candidate records the re-ranking service receives from similarity
    search (backend/app/services/vector_service.py builds them as dicts with
    'item_id', 'score' and 'metadata'). */
module Candidates {

  /** One candidate. `metadata` holds the string-valued metadata fields; a
      record without a 'metadata' entry has the empty map here, which is what
      `item.get('metadata', {})` reads it as. */
  datatype Candidate = Candidate(itemId: string, score: real, metadata: map<string, string>)

  /** Rendered in place of a missing title. */
  const UnknownTitle: string := "Unknown"

  /** `item.get('metadata', {}).get('title', 'Unknown')` */
  function Title(c: Candidate): string
  {
    if "title" in c.metadata then c.metadata["title"] else UnknownTitle
  }

  /** `item.get('metadata', {}).get('description', '')` */
  function Description(c: Candidate): string
  {
    if "description" in c.metadata then c.metadata["description"] else ""
  }
}

=== FILE: prompt.dfy ===
/** The ranking prompt: the bounded candidate subset, one numbered line per
    candidate, and the fixed instruction template around the user's context
    (backend/app/services/rag_service.py, `rerank` lines 37-48 and
    `_build_ranking_prompt`). */
module Prompt {
  import opened PyStr
  import opened Candidates

  /** At most this many candidates are shown to the oracle. */
  const MaxCandidates: nat := 50

  /** Each description is cut to at most this many characters. */
  const MaxDescription: nat := 150

  /** `candidates[:min(len(candidates), 50)]`: the subset every ranking index
      refers to. */
  function CandidateSubset<T>(candidates: seq<T>): (subset: seq<T>)
    ensures subset <= candidates
    ensures |subset| <= MaxCandidates
    ensures |candidates| <= MaxCandidates ==> subset == candidates
    ensures |candidates| >= MaxCandidates ==> |subset| == MaxCandidates
  {
    candidates[..Min(|candidates|, MaxCandidates)]
  }

  /** The description excerpt shown for a candidate. */
  function Excerpt(c: Candidate): (e: string)
    ensures e <= Description(c)
    ensures |e| == Min(|Description(c)|, MaxDescription)
    ensures |Description(c)| <= MaxDescription ==> e == Description(c)
  {
    Take(Description(c), MaxDescription)
  }

  /** The line `f"{n}. {title}: {desc}"` for the candidate numbered `n`. */
  function ItemLine(n: nat, c: Candidate): string
  {
    NatToString(n) + ". " + Title(c) + ": " + Excerpt(c)
  }

  /** `enumerate(candidates_subset, 1)`: line `i` shows candidate `i` under
      the 1-based number `i + 1`. */
  function ItemLines(subset: seq<Candidate>): (lines: seq<string>)
    ensures |lines| == |subset|
    ensures forall i :: 0 <= i < |subset| ==> lines[i] == ItemLine(i + 1, subset[i])
  {
    seq(|subset|, i requires 0 <= i < |subset| => ItemLine(i + 1, subset[i]))
  }

  /** `"\n".join(items_list)` */
  function ItemsText(subset: seq<Candidate>): string
  {
    Join(ItemLines(subset), '\n')
  }

  const PromptHead: string := "You are a recommendation expert. A user is looking for: \""
  const PromptItemsIntro: string := "\"\n\nHere are the candidate items:\n"
  const PromptInstruction: string :=
    "\n\nRank these items by relevance to the user's request. Return ONLY the top "
  const PromptTail: string :=
    " item numbers as a comma-separated list (e.g., \"5,1,3,7,2\").\n\nYour ranking:"

  /** `_build_ranking_prompt(context, items_text, top_k)`: only the context,
      the item list and the number `top_k` vary between prompts; they appear
      verbatim at their places in the fixed template. */
  function RankingPrompt(context: string, itemsText: string, topK: nat): (p: string)
    ensures |p| == |PromptHead| + |context| + |PromptItemsIntro| + |itemsText|
                  + |PromptInstruction| + |NatToString(topK)| + |PromptTail|
    ensures p[..|PromptHead|] == PromptHead
    ensures p[|PromptHead|..|PromptHead| + |context|] == context
    ensures var i := |PromptHead| + |context|;
      p[i..i + |PromptItemsIntro|] == PromptItemsIntro
    ensures var i := |PromptHead| + |context| + |PromptItemsIntro|;
      p[i..i + |itemsText|] == itemsText
    ensures var i := |PromptHead| + |context| + |PromptItemsIntro| + |itemsText|;
      p[i..i + |PromptInstruction|] == PromptInstruction
    ensures p[|p| - |PromptTail| - |NatToString(topK)|..|p| - |PromptTail|] == NatToString(topK)
    ensures p[|p| - |PromptTail|..] == PromptTail
  {
    var numeral := NatToString(topK);
    SevenParts(PromptHead, context, PromptItemsIntro, itemsText, PromptInstruction, numeral, PromptTail);
    PromptHead + context + PromptItemsIntro + itemsText + PromptInstruction + numeral + PromptTail
  }

  /** Where the parts of a seven-part concatenation sit in it. */
  lemma SevenParts(a: string, b: string, c: string, d: string, e: string, f: string, g: string)
    ensures var p := a + b + c + d + e + f + g;
      && |p| == |a| + |b| + |c| + |d| + |e| + |f| + |g|
      && p[..|a|] == a
      && p[|a|..|a| + |b|] == b
      && p[|a| + |b|..|a| + |b| + |c|] == c
      && p[|a| + |b| + |c|..|a| + |b| + |c| + |d|] == d
      && p[|a| + |b| + |c| + |d|..|a| + |b| + |c| + |d| + |e|] == e
      && p[|p| - |g| - |f|..|p| - |g|] == f
      && p[|p| - |g|..] == g
  {
    var p := a + b + c + d + e + f + g;
    var front := a + b + c + d;
    assert p == front + (e + f + g);
    assert front[..|a|] == a;
    assert front[|a|..|a| + |b|] == b;
    assert front[|a| + |b|..|a| + |b| + |c|] == c;
    assert front[|a| + |b| + |c|..] == d;
    assert (e + f + g)[..|e|] == e;
  }

  /** The item block of a prompt built for `context` and `topK`: the text
      between the intro and the instruction. */
  function ItemBlock(p: string, context: string, topK: nat): string
  {
    var start := |PromptHead| + |context| + |PromptItemsIntro|;
    var end := |p| - |PromptTail| - |NatToString(topK)| - |PromptInstruction|;
    if 0 <= start <= end <= |p| then p[start..end] else ""
  }

  /** The item block of a prompt is the item text it was built from. */
  lemma PromptItemBlock(context: string, itemsText: string, topK: nat)
    ensures ItemBlock(RankingPrompt(context, itemsText, topK), context, topK) == itemsText
  {
    var p := RankingPrompt(context, itemsText, topK);
    var start := |PromptHead| + |context| + |PromptItemsIntro|;
    assert p[start..start + |itemsText|] == itemsText;
  }

  /** The prompt determines the `top_k` it asks for. */
  lemma PromptDeterminesTopK(context: string, itemsText: string, k1: nat, k2: nat)
    requires RankingPrompt(context, itemsText, k1) == RankingPrompt(context, itemsText, k2)
    ensures k1 == k2
  {
    var p := RankingPrompt(context, itemsText, k1);
    var n1, n2 := NatToString(k1), NatToString(k2);
    assert |n1| == |n2|;
    assert n1 == p[|p| - |PromptTail| - |n1|..|p| - |PromptTail|] == n2;
    NatToStringInjective(k1, k2);
  }

  /** The prompt determines the context it quotes. */
  lemma PromptDeterminesContext(c1: string, c2: string, itemsText: string, topK: nat)
    requires RankingPrompt(c1, itemsText, topK) == RankingPrompt(c2, itemsText, topK)
    ensures c1 == c2
  {
    var p := RankingPrompt(c1, itemsText, topK);
    assert |c1| == |c2|;
    assert c1 == p[|PromptHead|..|PromptHead| + |c1|] == c2;
  }

  /** With no line break in any title or excerpt, the item text splits back
      into exactly one line per subset candidate. */
  lemma ItemsTextLines(subset: seq<Candidate>)
    requires |subset| > 0
    requires forall c :: c in subset ==> '\n' !in Title(c) && '\n' !in Excerpt(c)
    ensures Split(ItemsText(subset), '\n') == ItemLines(subset)
  {
    var lines := ItemLines(subset);
    forall i | 0 <= i < |lines|
      ensures '\n' !in lines[i]
    {
      var n := NatToString(i + 1);
      assert '\n' !in n by {
        assert forall j :: 0 <= j < |n| ==> IsDigit(n[j]);
      }
      assert subset[i] in subset;
      assert lines[i] == n + ". " + Title(subset[i]) + ": " + Excerpt(subset[i]);
    }
    SplitJoin(lines, '\n');
  }
}

=== FILE: pystr.dfy ===
/** The few Python built-ins the re-ranking service relies on, stated over
    `seq<char>`: `str.strip()`, `str.replace(' ', '')`, `str.split(',')`,
    `sep.join(...)`, `str.isdigit()`, `int(...)`, `str(n)` and slicing `s[:n]`.
    Digits are the ASCII digits '0'..'9' only. */
module PyStr {

  function Min(a: int, b: int): (m: int)
    ensures m <= a && m <= b
    ensures m == a || m == b
  {
    if a <= b then a else b
  }

  /** Python `s[:n]` for a non-negative `n`. */
  function Take<T>(s: seq<T>, n: nat): (r: seq<T>)
    ensures |r| == Min(n, |s|)
    ensures r <= s
  {
    s[..Min(n, |s|)]
  }

  /** The characters for which Python's `str.isspace()` holds; `str.strip()`
      with no argument removes exactly these from both ends. */
  predicate IsWhitespace(c: char) {
    || c == ' ' || c == '\t' || c == '\n' || c == '\r'
    || c == '\U{B}' || c == '\U{C}'
    || ('\U{1C}' <= c <= '\U{1F}')
    || c == '\U{85}' || c == '\U{A0}' || c == '\U{1680}'
    || ('\U{2000}' <= c <= '\U{200A}')
    || c == '\U{2028}' || c == '\U{2029}' || c == '\U{202F}' || c == '\U{205F}'
    || c == '\U{3000}'
  }

  predicate AllWhitespace(s: string) {
    forall i :: 0 <= i < |s| ==> IsWhitespace(s[i])
  }

  function TrimStart(s: string): (r: string)
    ensures |r| <= |s| && r == s[|s| - |r|..]
    ensures AllWhitespace(s[..|s| - |r|])
    ensures |r| > 0 ==> !IsWhitespace(r[0])
  {
    if |s| > 0 && IsWhitespace(s[0]) then TrimStart(s[1..]) else s
  }

  function TrimEnd(s: string): (r: string)
    ensures |r| <= |s| && r == s[..|r|]
    ensures AllWhitespace(s[|r|..])
    ensures |r| > 0 ==> !IsWhitespace(r[|r| - 1])
  {
    if |s| > 0 && IsWhitespace(s[|s| - 1]) then TrimEnd(s[..|s| - 1]) else s
  }

  /** Python `s.strip()`: trims whitespace from the start, then from the
      end. `StripSplitsOff` shows that what is cut away is whitespace. */
  function Strip(s: string): (r: string)
    ensures |r| <= |s|
    ensures |r| > 0 ==> !IsWhitespace(r[0]) && !IsWhitespace(r[|r| - 1])
  {
    TrimEnd(TrimStart(s))
  }

  /** Python `s.replace(' ', '')`. */
  function RemoveSpaces(s: string): (r: string)
    ensures ' ' !in r
    ensures |r| <= |s|
    ensures forall c :: c in r <==> c in s && c != ' '
  {
    if |s| == 0 then ""
    else if s[0] == ' ' then RemoveSpaces(s[1..])
    else [s[0]] + RemoveSpaces(s[1..])
  }

  /** Python `s.split(sep)` with an explicit separator: always at least one
      part, and an empty part between adjacent separators. */
  function Split(s: string, sep: char): (parts: seq<string>)
    ensures |parts| >= 1
    ensures forall i :: 0 <= i < |parts| ==> sep !in parts[i]
  {
    if |s| == 0 then [""]
    else if s[0] == sep then [""] + Split(s[1..], sep)
    else
      var rest := Split(s[1..], sep);
      [[s[0]] + rest[0]] + rest[1..]
  }

  /** Python `sep.join(parts)`. */
  function Join(parts: seq<string>, sep: char): string
  {
    if |parts| == 0 then ""
    else if |parts| == 1 then parts[0]
    else parts[0] + [sep] + Join(parts[1..], sep)
  }

  predicate IsDigit(c: char) {
    '0' <= c <= '9'
  }

  /** Python `s.isdigit()` restricted to ASCII digits: false on "". */
  predicate IsDigitString(s: string) {
    |s| > 0 && forall i :: 0 <= i < |s| ==> IsDigit(s[i])
  }

  function DigitValue(c: char): (d: nat)
    requires IsDigit(c)
    ensures d < 10
  {
    (c as int) - ('0' as int)
  }

  function DigitChar(d: nat): (c: char)
    requires d < 10
    ensures IsDigit(c) && DigitValue(c) == d
  {
    (('0' as int) + d) as char
  }

  /** Python `int(s)` on a string of ASCII digits (leading zeros allowed). */
  function DigitsValue(s: string): nat
    requires forall i :: 0 <= i < |s| ==> IsDigit(s[i])
  {
    if |s| == 0 then 0
    else DigitsValue(s[..|s| - 1]) * 10 + DigitValue(s[|s| - 1])
  }

  /** Python `str(n)` for a non-negative integer: decimal, no leading zero. */
  function NatToString(n: nat): (s: string)
    ensures IsDigitString(s)
    ensures |s| > 1 ==> s[0] != '0'
  {
    if n < 10 then [DigitChar(n)]
    else NatToString(n / 10) + [DigitChar(n % 10)]
  }

  /** `int(str(n)) == n`. */
  lemma {:induction false} NatToStringRoundTrip(n: nat)
    ensures DigitsValue(NatToString(n)) == n
  {
    if n >= 10 {
      var a := NatToString(n / 10);
      var s := a + [DigitChar(n % 10)];
      assert s[..|s| - 1] == a;
      NatToStringRoundTrip(n / 10);
    }
  }

  /** `str(int(s)) == s` for a digit string without a leading zero. */
  lemma {:induction false} DigitsValueRoundTrip(s: string)
    requires IsDigitString(s)
    requires |s| > 1 ==> s[0] != '0'
    ensures NatToString(DigitsValue(s)) == s
  {
    var a, c := s[..|s| - 1], s[|s| - 1];
    DigitRoundTrip(c);
    if |a| == 0 {
      assert s == [c];
    } else {
      assert a[0] == s[0];
      LeadingDigitPositive(a);
      DigitsValueRoundTrip(a);
      NatToStringSnoc(DigitsValue(a), DigitValue(c));
      assert s == a + [c];
    }
  }

  /** A leading zero does not change the value of a digit string, as with
      Python's `int("01") == 1`. */
  lemma {:induction false} LeadingZeroValue(t: string)
    requires forall i :: 0 <= i < |t| ==> IsDigit(t[i])
    ensures DigitsValue("0" + t) == DigitsValue(t)
  {
    var s := "0" + t;
    if |t| > 0 {
      var a := t[..|t| - 1];
      assert s[..|s| - 1] == "0" + a;
      assert s[|s| - 1] == t[|t| - 1];
      LeadingZeroValue(a);
    } else {
      assert s[..|s| - 1] == [];
    }
  }

  lemma DigitRoundTrip(c: char)
    requires IsDigit(c)
    ensures DigitChar(DigitValue(c)) == c
  {
  }

  /** Appending a digit to a positive number appends it to the numeral. */
  lemma NatToStringSnoc(k: nat, d: nat)
    requires k >= 1 && d < 10
    ensures NatToString(k * 10 + d) == NatToString(k) + [DigitChar(d)]
  {
    var n := k * 10 + d;
    assert n / 10 == k && n % 10 == d;
  }

  lemma {:induction false} LeadingDigitPositive(s: string)
    requires IsDigitString(s)
    requires s[0] != '0'
    ensures DigitsValue(s) >= 1
  {
    var a := s[..|s| - 1];
    if |a| > 0 {
      assert a[0] == s[0];
      LeadingDigitPositive(a);
    } else {
      assert s[|s| - 1] == s[0];
    }
  }

  /** Different numbers render differently. */
  lemma NatToStringInjective(m: nat, n: nat)
    requires NatToString(m) == NatToString(n)
    ensures m == n
  {
    NatToStringRoundTrip(m);
    NatToStringRoundTrip(n);
  }

  /** Splitting on a separator that no part contains undoes `Join`. */
  lemma {:induction false} SplitJoin(parts: seq<string>, sep: char)
    requires |parts| >= 1
    requires forall i :: 0 <= i < |parts| ==> sep !in parts[i]
    ensures Split(Join(parts, sep), sep) == parts
  {
    if |parts| == 1 {
      SplitNoSeparator(parts[0], sep);
    } else {
      SplitJoin(parts[1..], sep);
      SplitAfterSeparator(parts[0], Join(parts[1..], sep), sep);
    }
  }

  /** A character absent from the text is absent from every part of its split. */
  lemma {:induction false} SplitKeepsAbsent(s: string, sep: char, c: char)
    requires c !in s
    ensures forall j :: 0 <= j < |Split(s, sep)| ==> c !in Split(s, sep)[j]
  {
    if |s| > 0 {
      assert c !in s[1..] by {
        assert forall i :: 0 <= i < |s[1..]| ==> s[1..][i] == s[i + 1];
      }
      SplitKeepsAbsent(s[1..], sep, c);
    }
  }

  /** A join of non-empty parts starts with the first part's first character
      and ends with the last part's last character. */
  lemma {:induction false} JoinEnds(parts: seq<string>, sep: char)
    requires |parts| > 0
    requires forall i :: 0 <= i < |parts| ==> |parts[i]| > 0
    ensures var s := Join(parts, sep);
      |s| > 0 && s[0] == parts[0][0] && s[|s| - 1] == parts[|parts| - 1][|parts[|parts| - 1]| - 1]
  {
    if |parts| > 1 {
      JoinEnds(parts[1..], sep);
    }
  }

  /** Joining the parts of a split with the same separator restores the string. */
  lemma {:induction false} JoinSplit(s: string, sep: char)
    ensures Join(Split(s, sep), sep) == s
  {
    if |s| > 0 {
      var rest := Split(s[1..], sep);
      JoinSplit(s[1..], sep);
      if s[0] == sep {
        assert Split(s, sep) == [""] + rest;
        assert ([""] + rest)[1..] == rest;
      } else {
        var parts := Split(s, sep);
        assert parts == [[s[0]] + rest[0]] + rest[1..];
        if |rest| == 1 {
          assert parts == [[s[0]] + rest[0]];
        } else {
          assert parts[1..] == rest[1..];
          assert Join(rest, sep) == rest[0] + [sep] + Join(rest[1..], sep);
        }
      }
    }
  }

  lemma {:induction false} SplitNoSeparator(s: string, sep: char)
    requires sep !in s
    ensures Split(s, sep) == [s]
  {
    if |s| > 0 {
      assert sep !in s[1..] by {
        assert forall i :: 0 <= i < |s[1..]| ==> s[1..][i] == s[i + 1];
      }
      SplitNoSeparator(s[1..], sep);
      assert [s[0]] + s[1..] == s;
    }
  }

  lemma {:induction false} SplitAfterSeparator(a: string, b: string, sep: char)
    requires sep !in a
    ensures Split(a + [sep] + b, sep) == [a] + Split(b, sep)
  {
    var s := a + [sep] + b;
    if |a| == 0 {
      assert s == [sep] + b && s[1..] == b;
    } else {
      assert sep !in a[1..] by {
        assert forall i :: 0 <= i < |a[1..]| ==> a[1..][i] == a[i + 1];
      }
      SplitAfterSeparator(a[1..], b, sep);
      assert s[0] == a[0] && s[1..] == a[1..] + [sep] + b;
      assert [a[0]] + a[1..] == a;
    }
  }

  /** A string without whitespace at either end is its own `strip()`. */
  lemma StripUnchanged(s: string)
    requires |s| > 0 ==> !IsWhitespace(s[0]) && !IsWhitespace(s[|s| - 1])
    ensures Strip(s) == s
  {
  }

  /** A string without spaces is unchanged by removing spaces. */
  lemma {:induction false} RemoveSpacesUnchanged(s: string)
    requires ' ' !in s
    ensures RemoveSpaces(s) == s
  {
    if |s| > 0 {
      assert ' ' !in s[1..] by {
        assert forall i :: 0 <= i < |s[1..]| ==> s[1..][i] == s[i + 1];
      }
      RemoveSpacesUnchanged(s[1..]);
      assert [s[0]] + s[1..] == s;
    }
  }

  /** Removing spaces distributes over concatenation. */
  lemma {:induction false} RemoveSpacesAppend(x: string, y: string)
    ensures RemoveSpaces(x + y) == RemoveSpaces(x) + RemoveSpaces(y)
  {
    if |x| == 0 {
      assert x + y == y;
    } else {
      assert (x + y)[0] == x[0] && (x + y)[1..] == x[1..] + y;
      RemoveSpacesAppend(x[1..], y);
    }
  }

  /** Removing spaces from whitespace leaves whitespace. */
  lemma RemoveSpacesWhitespace(w: string)
    requires AllWhitespace(w)
    ensures AllWhitespace(RemoveSpaces(w))
  {
    var r := RemoveSpaces(w);
    forall k | 0 <= k < |r|
      ensures IsWhitespace(r[k])
    {
      assert r[k] in w;
    }
  }

  lemma TrimStartWhitespace(w: string)
    requires AllWhitespace(w)
    ensures TrimStart(w) == ""
  {
  }

  /** Where `strip` starts cutting does not depend on what follows a
      whitespace-only head. */
  lemma {:induction false} TrimStartAppend(x: string, w: string)
    ensures AllWhitespace(x) ==> TrimStart(x + w) == TrimStart(w)
    ensures !AllWhitespace(x) ==> TrimStart(x + w) == TrimStart(x) + w
  {
    if |x| == 0 {
      assert x + w == w;
    } else {
      assert (x + w)[0] == x[0] && (x + w)[1..] == x[1..] + w;
      if IsWhitespace(x[0]) {
        TrimStartAppend(x[1..], w);
        AllWhitespaceTail(x);
      }
    }
  }

  lemma AllWhitespaceTail(x: string)
    requires |x| > 0 && IsWhitespace(x[0])
    ensures AllWhitespace(x) <==> AllWhitespace(x[1..])
  {
    if AllWhitespace(x[1..]) {
      forall k | 0 <= k < |x|
        ensures IsWhitespace(x[k])
      {
        if k > 0 {
          assert x[k] == x[1..][k - 1];
        }
      }
    }
  }

  lemma {:induction false} TrimEndWhitespaceSuffix(y: string, w: string)
    requires AllWhitespace(w)
    ensures TrimEnd(y + w) == TrimEnd(y)
    decreases |w|
  {
    if |w| == 0 {
      assert y + w == y;
    } else {
      var yw := y + w;
      assert yw[|yw| - 1] == w[|w| - 1];
      assert yw[..|yw| - 1] == y + w[..|w| - 1];
      TrimEndWhitespaceSuffix(y, w[..|w| - 1]);
    }
  }

  /** `strip()` ignores whitespace put in front. */
  lemma {:induction false} StripWhitespacePrefix(w: string, x: string)
    requires AllWhitespace(w)
    ensures Strip(w + x) == Strip(x)
  {
    TrimStartAppend(w, x);
  }

  /** `strip()` ignores whitespace put behind. */
  lemma {:induction false} StripWhitespaceSuffix(x: string, w: string)
    requires AllWhitespace(w)
    ensures Strip(x + w) == Strip(x)
  {
    TrimStartAppend(x, w);
    if AllWhitespace(x) {
      TrimStartWhitespace(w);
      TrimStartWhitespace(x);
    } else {
      TrimEndWhitespaceSuffix(TrimStart(x), w);
    }
  }

  /** Splitting after a separator-free head glues the head to the first part. */
  lemma {:induction false} SplitPrepend(p: string, u: string, sep: char)
    requires sep !in p
    ensures Split(p + u, sep) == [p + Split(u, sep)[0]] + Split(u, sep)[1..]
  {
    var us := Split(u, sep);
    if |p| == 0 {
      assert p + u == u;
      assert p + us[0] == us[0];
      assert [us[0]] + us[1..] == us;
    } else {
      assert (p + u)[0] == p[0] && (p + u)[1..] == p[1..] + u;
      assert sep !in p[1..] by {
        assert forall i :: 0 <= i < |p[1..]| ==> p[1..][i] == p[i + 1];
      }
      SplitPrepend(p[1..], u, sep);
      assert [p[0]] + (p[1..] + us[0]) == p + us[0];
    }
  }

  /** Splitting before a separator-free tail glues the tail to the last part. */
  lemma {:induction false} SplitAppend(u: string, q: string, sep: char)
    requires sep !in q
    ensures var us := Split(u, sep);
      Split(u + q, sep) == us[..|us| - 1] + [us[|us| - 1] + q]
  {
    if |u| == 0 {
      assert u + q == q;
      SplitNoSeparator(q, sep);
    } else {
      assert (u + q)[0] == u[0] && (u + q)[1..] == u[1..] + q;
      SplitAppend(u[1..], q, sep);
      if u[0] == sep {
        SplitAppendAfterSeparator(u, q, sep);
      } else {
        SplitAppendAfterChar(u, q, sep);
      }
    }
  }

  lemma SplitAppendAfterSeparator(u: string, q: string, sep: char)
    requires |u| > 0 && u[0] == sep
    requires (u + q)[1..] == u[1..] + q
    requires var rest := Split(u[1..], sep);
      Split(u[1..] + q, sep) == rest[..|rest| - 1] + [rest[|rest| - 1] + q]
    ensures var us := Split(u, sep);
      Split(u + q, sep) == us[..|us| - 1] + [us[|us| - 1] + q]
  {
    var rest := Split(u[1..], sep);
    var us := Split(u, sep);
    assert us == [""] + rest;
    assert us[..|us| - 1] == [""] + rest[..|rest| - 1];
  }

  lemma SplitAppendAfterChar(u: string, q: string, sep: char)
    requires |u| > 0 && u[0] != sep
    requires (u + q)[1..] == u[1..] + q
    requires var rest := Split(u[1..], sep);
      Split(u[1..] + q, sep) == rest[..|rest| - 1] + [rest[|rest| - 1] + q]
    ensures var us := Split(u, sep);
      Split(u + q, sep) == us[..|us| - 1] + [us[|us| - 1] + q]
  {
    var rest := Split(u[1..], sep);
    var us := Split(u, sep);
    assert us == [[u[0]] + rest[0]] + rest[1..];
    if |rest| == 1 {
      assert [u[0]] + (rest[0] + q) == [u[0]] + rest[0] + q;
    } else {
      assert us[..|us| - 1] == [[u[0]] + rest[0]] + rest[1..|rest| - 1];
      assert us[|us| - 1] == rest[|rest| - 1];
    }
  }

  /** A string is its stripped core with whitespace on either side. */
  lemma StripSplitsOff(s: string) returns (head: string, tail: string)
    ensures s == head + Strip(s) + tail
    ensures AllWhitespace(head) && AllWhitespace(tail)
  {
    head := TrimStartSplitsOff(s);
    tail := TrimEndSplitsOff(TrimStart(s));
  }

  lemma TrimStartSplitsOff(s: string) returns (head: string)
    ensures s == head + TrimStart(s)
    ensures AllWhitespace(head)
  {
    head := s[..|s| - |TrimStart(s)|];
  }

  lemma TrimEndSplitsOff(s: string) returns (tail: string)
    ensures s == TrimEnd(s) + tail
    ensures AllWhitespace(tail)
  {
    tail := s[|TrimEnd(s)|..];
  }

  /** Leading whitespace only reaches the first part of a split, and strips
      off it again. */
  lemma SplitWhitespacePrefix(head: string, u: string, sep: char)
    requires AllWhitespace(head) && sep !in head
    ensures |Split(head + u, sep)| == |Split(u, sep)|
    ensures forall j :: 0 <= j < |Split(u, sep)| ==>
              Strip(Split(head + u, sep)[j]) == Strip(Split(u, sep)[j])
  {
    SplitPrepend(head, u, sep);
    StripWhitespacePrefix(head, Split(u, sep)[0]);
  }

  /** Trailing whitespace only reaches the last part of a split, and strips
      off it again. */
  lemma SplitWhitespaceSuffix(u: string, tail: string, sep: char)
    requires AllWhitespace(tail) && sep !in tail
    ensures |Split(u + tail, sep)| == |Split(u, sep)|
    ensures forall j :: 0 <= j < |Split(u, sep)| ==>
              Strip(Split(u + tail, sep)[j]) == Strip(Split(u, sep)[j])
  {
    var us, ts := Split(u, sep), Split(u + tail, sep);
    SplitAppend(u, tail, sep);
    forall j | 0 <= j < |us|
      ensures Strip(ts[j]) == Strip(us[j])
    {
      if j == |us| - 1 {
        StripWhitespaceSuffix(us[j], tail);
      }
    }
  }

  /** Whitespace around a string reaches only the first and the last part of
      its split, and is stripped off those again: part by part, the stripped
      parts agree. */
  lemma SplitWithWhitespaceEdges(head: string, u: string, tail: string, sep: char)
    requires AllWhitespace(head) && AllWhitespace(tail)
    requires !IsWhitespace(sep)
    ensures |Split(head + u + tail, sep)| == |Split(u, sep)|
    ensures forall j :: 0 <= j < |Split(u, sep)| ==>
              Strip(Split(head + u + tail, sep)[j]) == Strip(Split(u, sep)[j])
  {
    assert sep !in head && sep !in tail;
    SplitWhitespacePrefix(head, u, sep);
    SplitWhitespaceSuffix(head + u, tail, sep);
  }
}

=== FILE: rankings.dfy ===
/** Parsing the oracle's reply into 0-based subset indices
    (backend/app/services/rag_service.py, `_parse_rankings`). */
module Rankings {
  import opened Wrappers
  import opened PyStr

  /** The parse falls back to this many leading indices, whatever `top_k` is. */
  const FallbackLength: nat := 10

  /** The index a single comma-separated token contributes: the token with
      surrounding whitespace stripped must be an ASCII digit string whose
      1-based value lies in `1..maxIndex`. */
  function TokenIndex(token: string, maxIndex: nat): (r: Option<nat>)
    ensures r.Some? ==> r.value < maxIndex
    ensures r.Some? ==> IsDigitString(Strip(token)) && DigitsValue(Strip(token)) == r.value + 1
    ensures IsDigitString(Strip(token)) && 1 <= DigitsValue(Strip(token)) <= maxIndex ==>
              r == Some(DigitsValue(Strip(token)) - 1)
  {
    var part := Strip(token);
    if IsDigitString(part) then
      var num := DigitsValue(part) - 1;
      if 0 <= num < maxIndex then Some(num) else None
    else None
  }

  /** The indices contributed by `tokens`, in token order, duplicates kept. */
  function CollectIndices(tokens: seq<string>, maxIndex: nat): (r: seq<nat>)
    ensures |r| <= |tokens|
    ensures forall j :: 0 <= j < |r| ==> r[j] < maxIndex
  {
    if |tokens| == 0 then []
    else
      match TokenIndex(tokens[0], maxIndex)
      case Some(i) => [i] + CollectIndices(tokens[1..], maxIndex)
      case None => CollectIndices(tokens[1..], maxIndex)
  }

  /** `list(range(min(10, max_index)))` */
  function Fallback(maxIndex: nat): (r: seq<nat>)
    ensures |r| == Min(FallbackLength, maxIndex)
    ensures forall j :: 0 <= j < |r| ==> r[j] == j
  {
    seq(Min(FallbackLength, maxIndex), j => j)
  }

  /** The comma-separated tokens of a reply, spaces removed first. */
  function Tokens(text: string): (tokens: seq<string>)
    ensures |tokens| >= 1
    ensures forall j :: 0 <= j < |tokens| ==> ',' !in tokens[j] && ' ' !in tokens[j]
    ensures Join(tokens, ',') == RemoveSpaces(text)
  {
    var noSpaces := RemoveSpaces(text);
    var parts := Split(noSpaces, ',');
    assert forall j :: 0 <= j < |parts| ==> ' ' !in parts[j] by {
      SplitKeepsAbsent(noSpaces, ',', ' ');
    }
    JoinSplit(noSpaces, ',');
    parts
  }

  /** A comma-joined reply without spaces tokenises back into its parts. */
  lemma TokensOfJoin(parts: seq<string>)
    requires |parts| >= 1
    requires forall i :: 0 <= i < |parts| ==> ',' !in parts[i]
    requires ' ' !in Join(parts, ',')
    ensures Tokens(Join(parts, ',')) == parts
  {
    RemoveSpacesUnchanged(Join(parts, ','));
    SplitJoin(parts, ',');
  }

  /** `_parse_rankings(rankings_text, max_index)`: the in-range indices the
      reply names, or the fixed fallback when it names none. Every index is
      below `max_index` on both paths, and the result is empty exactly when
      there is nothing to index. */
  function ParseRankings(text: string, maxIndex: nat): (r: seq<nat>)
    ensures forall j :: 0 <= j < |r| ==> r[j] < maxIndex
    ensures |r| == 0 <==> maxIndex == 0
  {
    var numbers := CollectIndices(Tokens(text), maxIndex);
    assert |numbers| > 0 ==> numbers[0] < maxIndex;
    if |numbers| > 0 then numbers else Fallback(maxIndex)
  }

  /** The reply the prompt asks for: the 1-based numbers of `indices`,
      comma-separated. */
  function RankingReply(indices: seq<nat>): string
  {
    Join(Numerals(indices), ',')
  }

  function Numerals(indices: seq<nat>): (ns: seq<string>)
    ensures |ns| == |indices|
    ensures forall j :: 0 <= j < |ns| ==> ns[j] == NatToString(indices[j] + 1)
  {
    seq(|indices|, j requires 0 <= j < |indices| => NatToString(indices[j] + 1))
  }

  /** Collecting is token-wise: concatenated token lists give concatenated
      index lists, so the reply's order and its duplicates are kept. */
  lemma {:induction false} CollectIndicesAppend(t1: seq<string>, t2: seq<string>, maxIndex: nat)
    ensures CollectIndices(t1 + t2, maxIndex) == CollectIndices(t1, maxIndex) + CollectIndices(t2, maxIndex)
  {
    if |t1| == 0 {
      assert t1 + t2 == t2;
    } else {
      assert (t1 + t2)[0] == t1[0] && (t1 + t2)[1..] == t1[1..] + t2;
      CollectIndicesAppend(t1[1..], t2, maxIndex);
    }
  }

  /** A single token contributes its index if it has one, and nothing else. */
  lemma CollectIndicesSingle(token: string, maxIndex: nat)
    ensures TokenIndex(token, maxIndex).Some? ==> CollectIndices([token], maxIndex) == [TokenIndex(token, maxIndex).value]
    ensures TokenIndex(token, maxIndex).None? ==> CollectIndices([token], maxIndex) == []
  {
    assert [token][1..] == [];
  }

  /** The 1-based number of index `i` is a token that names `i`. */
  lemma NumeralNamesIndex(i: nat, maxIndex: nat)
    requires i < maxIndex
    ensures TokenIndex(NatToString(i + 1), maxIndex) == Some(i)
  {
    NumeralToken(i + 1, maxIndex);
  }

  /** The numeral of `n` names index `n - 1` when `1 <= n <= max_index`, and
      nothing otherwise. */
  lemma NumeralToken(n: nat, maxIndex: nat)
    ensures 1 <= n <= maxIndex ==> TokenIndex(NatToString(n), maxIndex) == Some(n - 1)
    ensures !(1 <= n <= maxIndex) ==> TokenIndex(NatToString(n), maxIndex) == None
  {
    var s := NatToString(n);
    assert forall j :: 0 <= j < |s| ==> IsDigit(s[j]);
    StripUnchanged(s);
    NatToStringRoundTrip(n);
  }

  /** Leading zeros are accepted: a digit token with a `0` put in front
      names the same index, so "01" names the first candidate. */
  lemma LeadingZeroToken(t: string, maxIndex: nat)
    requires IsDigitString(t)
    ensures TokenIndex("0" + t, maxIndex) == TokenIndex(t, maxIndex)
  {
    var z := "0" + t;
    assert forall j :: 0 <= j < |z| ==> IsDigit(z[j]) by {
      forall j | 0 <= j < |z| ensures IsDigit(z[j]) {
        if j > 0 { assert z[j] == t[j - 1]; }
      }
    }
    StripUnchanged(t);
    StripUnchanged(z);
    LeadingZeroValue(t);
  }

  lemma {:induction false} CollectNumerals(indices: seq<nat>, maxIndex: nat)
    requires forall j :: 0 <= j < |indices| ==> indices[j] < maxIndex
    ensures CollectIndices(Numerals(indices), maxIndex) == indices
  {
    if |indices| == 0 {
      assert Numerals(indices) == [];
    } else {
      var ns, rest := Numerals(indices), indices[1..];
      NumeralsSplit(indices, maxIndex);
      CollectNamedFirst(ns[0], ns[1..], maxIndex, indices[0]);
      CollectNumerals(rest, maxIndex);
      assert [indices[0]] + rest == indices;
    }
  }

  /** The first numeral names the first index; the rest are the numerals of
      the remaining indices. */
  lemma NumeralsSplit(indices: seq<nat>, maxIndex: nat)
    requires |indices| > 0 && indices[0] < maxIndex
    ensures var ns := Numerals(indices);
      && ns == [ns[0]] + Numerals(indices[1..])
      && TokenIndex(ns[0], maxIndex) == Some(indices[0])
  {
    NumeralsTail(indices);
    FirstNumeralNamesIndex(indices, maxIndex);
  }

  lemma FirstNumeralNamesIndex(indices: seq<nat>, maxIndex: nat)
    requires |indices| > 0 && indices[0] < maxIndex
    ensures TokenIndex(Numerals(indices)[0], maxIndex) == Some(indices[0])
  {
    var n := indices[0] + 1;
    assert Numerals(indices)[0] == NatToString(n);
    NumeralToken(n, maxIndex);
  }

  lemma NumeralsTail(indices: seq<nat>)
    requires |indices| > 0
    ensures var ns := Numerals(indices); ns == [ns[0]] + Numerals(indices[1..])
  {
    var ns := Numerals(indices);
    assert ns[1..] == Numerals(indices[1..]);
  }

  /** A first token that names `i` contributes `i` ahead of the rest. */
  lemma CollectNamedFirst(first: string, rest: seq<string>, maxIndex: nat, i: nat)
    requires TokenIndex(first, maxIndex) == Some(i)
    ensures CollectIndices([first] + rest, maxIndex) == [i] + CollectIndices(rest, maxIndex)
  {
    assert ([first] + rest)[1..] == rest;
  }

  lemma {:induction false} JoinNumeralsHasNoSpace(indices: seq<nat>)
    ensures ' ' !in RankingReply(indices)
  {
    var ns := Numerals(indices);
    if |indices| > 0 {
      var n := ns[0];
      assert ' ' !in n by {
        assert forall j :: 0 <= j < |n| ==> IsDigit(n[j]);
      }
      if |indices| > 1 {
        assert ns[1..] == Numerals(indices[1..]);
        JoinNumeralsHasNoSpace(indices[1..]);
      }
    }
  }

  /** Round trip: a reply in exactly the requested format parses back to the
      indices it was written from, in order and with any repetitions. */
  lemma ParseRankingReply(indices: seq<nat>, maxIndex: nat)
    requires |indices| > 0
    requires forall j :: 0 <= j < |indices| ==> indices[j] < maxIndex
    ensures ParseRankings(RankingReply(indices), maxIndex) == indices
  {
    var ns := Numerals(indices);
    forall j | 0 <= j < |ns|
      ensures ',' !in ns[j]
    {
      assert forall k :: 0 <= k < |ns[j]| ==> IsDigit(ns[j][k]);
    }
    JoinNumeralsHasNoSpace(indices);
    RemoveSpacesUnchanged(RankingReply(indices));
    SplitJoin(ns, ',');
    CollectNumerals(indices, maxIndex);
  }

  /** When no token names an in-range index, the result is exactly
      `0, 1, ..., min(10, max_index) - 1`. */
  lemma ParseFallsBack(text: string, maxIndex: nat)
    requires forall j :: 0 <= j < |Tokens(text)| ==> TokenIndex(Tokens(text)[j], maxIndex).None?
    ensures ParseRankings(text, maxIndex) == seq(Min(FallbackLength, maxIndex), j => j)
  {
    NoneCollectsNothing(Tokens(text), maxIndex);
  }

  lemma {:induction false} NoneCollectsNothing(tokens: seq<string>, maxIndex: nat)
    requires forall j :: 0 <= j < |tokens| ==> TokenIndex(tokens[j], maxIndex).None?
    ensures CollectIndices(tokens, maxIndex) == []
  {
    if |tokens| > 0 {
      NoneCollectsNothing(tokens[1..], maxIndex);
    }
  }

  /** A token that names an index is kept by the parse, in its place. */
  lemma {:induction false} NamedIndexIsKept(text: string, maxIndex: nat, j: nat)
    requires j < |Tokens(text)|
    requires TokenIndex(Tokens(text)[j], maxIndex).Some?
    ensures TokenIndex(Tokens(text)[j], maxIndex).value in ParseRankings(text, maxIndex)
  {
    var ts := Tokens(text);
    assert ts == ts[..j] + [ts[j]] + ts[j + 1..];
    CollectIndicesAppend(ts[..j] + [ts[j]], ts[j + 1..], maxIndex);
    CollectIndicesAppend(ts[..j], [ts[j]], maxIndex);
    CollectIndicesSingle(ts[j], maxIndex);
  }

  /** Conversely, every index the parse returns is named by some token, or
      else no token names any index and it is a fallback position. */
  lemma ParsedIndexIsNamed(text: string, maxIndex: nat, x: nat)
    requires x in ParseRankings(text, maxIndex)
    ensures || (exists j :: 0 <= j < |Tokens(text)| && TokenIndex(Tokens(text)[j], maxIndex) == Some(x))
            || (CollectIndices(Tokens(text), maxIndex) == [] && x < Min(FallbackLength, maxIndex))
  {
    var ts := Tokens(text);
    if CollectIndices(ts, maxIndex) != [] {
      var j := CollectedIsNamed(ts, maxIndex, x);
    }
  }

  lemma {:induction false} CollectedIsNamed(tokens: seq<string>, maxIndex: nat, x: nat) returns (j: nat)
    requires x in CollectIndices(tokens, maxIndex)
    ensures j < |tokens| && TokenIndex(tokens[j], maxIndex) == Some(x)
  {
    if TokenIndex(tokens[0], maxIndex) == Some(x) {
      j := 0;
    } else {
      var k := CollectedIsNamed(tokens[1..], maxIndex, x);
      j := k + 1;
    }
  }

  /** Token lists that agree token by token on the index they name collect
      the same indices. */
  lemma {:induction false} CollectIndicesPointwise(t1: seq<string>, t2: seq<string>, maxIndex: nat)
    requires |t1| == |t2|
    requires forall j :: 0 <= j < |t1| ==> TokenIndex(t1[j], maxIndex) == TokenIndex(t2[j], maxIndex)
    ensures CollectIndices(t1, maxIndex) == CollectIndices(t2, maxIndex)
  {
    if |t1| > 0 {
      CollectIndicesPointwise(t1[1..], t2[1..], maxIndex);
    }
  }

  /** Stripping the reply before parsing, as `rerank` does, changes nothing:
      the surrounding whitespace only reaches the first and last token, and
      each token is stripped anyway. */
  lemma ParseIgnoresSurroundingWhitespace(text: string, maxIndex: nat)
    ensures ParseRankings(Strip(text), maxIndex) == ParseRankings(text, maxIndex)
  {
    var r := Strip(text);
    var head, tail := StripSplitsOff(text);
    TokensWithWhitespaceEdges(head, r, tail);
    var ts, us := Tokens(text), Tokens(r);
    forall j | 0 <= j < |ts|
      ensures TokenIndex(ts[j], maxIndex) == TokenIndex(us[j], maxIndex)
    {
      TokenIndexOfStripped(ts[j], us[j], maxIndex);
    }
    CollectIndicesPointwise(ts, us, maxIndex);
  }

  lemma TokensWithWhitespaceEdges(head: string, r: string, tail: string)
    requires AllWhitespace(head) && AllWhitespace(tail)
    ensures |Tokens(head + r + tail)| == |Tokens(r)|
    ensures forall j :: 0 <= j < |Tokens(r)| ==> Strip(Tokens(head + r + tail)[j]) == Strip(Tokens(r)[j])
  {
    RemoveSpacesAppend(head + r, tail);
    RemoveSpacesAppend(head, r);
    RemoveSpacesWhitespace(head);
    RemoveSpacesWhitespace(tail);
    assert !IsWhitespace(',');
    SplitWithWhitespaceEdges(RemoveSpaces(head), RemoveSpaces(r), RemoveSpaces(tail), ',');
  }

  /** A token's index depends only on the token stripped. */
  lemma TokenIndexOfStripped(t1: string, t2: string, maxIndex: nat)
    requires Strip(t1) == Strip(t2)
    ensures TokenIndex(t1, maxIndex) == TokenIndex(t2, maxIndex)
  {
  }

  /** A token that starts with neither whitespace nor a digit names nothing. */
  lemma NonNumericToken(token: string, maxIndex: nat)
    requires |token| > 0 && !IsWhitespace(token[0]) && !IsDigit(token[0])
    ensures TokenIndex(token, maxIndex) == None
  {
    assert TrimStart(token) == token;
    var r := Strip(token);
    assert |r| > 0 ==> r[0] == token[0];
  }
}

=== FILE: reorder.dfy ===
/** Reordering the subset by the parsed rankings and topping the result up in
    prior order (backend/app/services/rag_service.py, `rerank` lines 64-73).
    Candidates are compared with `==`, as Python's `in` on a list of dicts
    compares them by value. */
module Reorder {
  import opened PyStr

  /** No two positions of `s` hold equal elements. */
  ghost predicate NoRepeats<T>(s: seq<T>) {
    forall i, j :: 0 <= i < j < |s| ==> s[i] != s[j]
  }

  /** `for rank_idx in ranks: if rank_idx < len(subset): append(subset[rank_idx])` */
  function Pick<T>(subset: seq<T>, ranks: seq<nat>): (r: seq<T>)
    ensures |r| <= |ranks|
    ensures forall x :: x in r ==> x in subset
    ensures (forall j :: 0 <= j < |ranks| ==> ranks[j] < |subset|) ==>
              |r| == |ranks| && forall j :: 0 <= j < |ranks| ==> r[j] == subset[ranks[j]]
  {
    if |ranks| == 0 then []
    else if ranks[0] < |subset| then [subset[ranks[0]]] + Pick(subset, ranks[1..])
    else Pick(subset, ranks[1..])
  }

  /** The reorder loop over `rankings[:top_k]`. */
  function ReorderByRankings<T>(subset: seq<T>, rankings: seq<nat>, topK: nat): (r: seq<T>)
    ensures |r| <= topK
    ensures forall x :: x in r ==> x in subset
    ensures (forall j :: 0 <= j < |rankings| ==> rankings[j] < |subset|) ==>
              |r| == Min(topK, |rankings|) && forall j :: 0 <= j < |r| ==> r[j] == subset[rankings[j]]
  {
    Pick(subset, Take(rankings, topK))
  }

  /** The fill loop `for candidate in pool: if candidate not in acc and
      len(acc) < top_k: acc.append(candidate)`. What is appended comes from
      the pool, is new to the list at the moment it is appended, and the loop
      only stops short of `top_k` once every pool member is present. */
  function FillFrom<T(==)>(pool: seq<T>, acc: seq<T>, topK: nat): (r: seq<T>)
    ensures |acc| <= |r| && r[..|acc|] == acc
    ensures |acc| <= topK ==> |r| <= topK
    ensures |acc| >= topK ==> r == acc
    ensures forall i :: |acc| <= i < |r| ==> r[i] in pool && r[i] !in r[..i]
    ensures |r| < topK ==> forall x :: x in pool ==> x in r
  {
    if |pool| == 0 then acc
    else if pool[0] !in acc && |acc| < topK then FillFrom(pool[1..], acc + [pool[0]], topK)
    else FillFrom(pool[1..], acc, topK)
  }

  /** `if len(reranked) < top_k:` followed by the fill loop over the subset. */
  function Fill<T(==)>(subset: seq<T>, reranked: seq<T>, topK: nat): (r: seq<T>)
    ensures |reranked| <= |r| && r[..|reranked|] == reranked
    ensures |reranked| <= topK ==> |r| <= topK
    ensures |reranked| >= topK ==> r == reranked
    ensures forall i :: |reranked| <= i < |r| ==> r[i] in subset && r[i] !in r[..i]
    ensures |r| < topK ==> forall x :: x in subset ==> x in r
  {
    if |reranked| < topK then FillFrom(subset, reranked, topK) else reranked
  }

  /** Once every subset member is present, the fill adds nothing. */
  lemma FillCoveredIsNoop<T>(subset: seq<T>, reranked: seq<T>, topK: nat)
    requires forall x :: x in subset ==> x in reranked
    ensures Fill(subset, reranked, topK) == reranked
  {
    var r := Fill(subset, reranked, topK);
    var n := |reranked|;
    if |r| > n {
      assert false;
    }
    assert r == r[..n];
  }

  /** Rankings that order the whole subset are followed exactly, with
      nothing left to fill. */
  lemma ReorderFullOrder<T>(subset: seq<T>, rankings: seq<nat>, topK: nat)
    requires |rankings| == |subset| <= topK
    requires NoRepeats(rankings)
    requires forall j :: 0 <= j < |rankings| ==> rankings[j] < |subset|
    ensures var r := Fill(subset, ReorderByRankings(subset, rankings, topK), topK);
      |r| == |rankings| && forall j :: 0 <= j < |rankings| ==> r[j] == subset[rankings[j]]
  {
    var n := |subset|;
    var head := ReorderByRankings(subset, rankings, topK);
    forall x | x in subset
      ensures x in head
    {
      var v :| 0 <= v < n && subset[v] == x;
      IndicesCover(rankings, v);
      var j :| 0 <= j < n && rankings[j] == v;
      assert head[j] == x;
    }
    FillCoveredIsNoop(subset, head, topK);
  }

  /** `n` distinct naturals below `n` include every natural below `n`. */
  lemma IndicesCover(indices: seq<nat>, v: nat)
    requires NoRepeats(indices)
    requires forall j :: 0 <= j < |indices| ==> indices[j] < |indices|
    requires v < |indices|
    ensures v in indices
  {
    var n := |indices|;
    var upto: seq<nat> := seq(n, (i: nat) => i);
    var present: set<nat> := set x | x in indices;
    var all: set<nat> := set x | x in upto;
    DistinctCard(indices);
    DistinctCard(upto);
    assert |all| == n;
    assert v in all by {
      assert upto[v] == v;
    }
    if v !in indices {
      var below := all - {v};
      assert present <= below by {
        forall x | x in present
          ensures x in below
        {
          assert upto[x] == x;
        }
      }
      SubsetCard(present, below);
      assert false;
    }
  }

  /** Reference definition of what the fill appends: the members of `pool`
      not yet in `seen`, each at its first occurrence, in pool order. */
  function Novel<T(==)>(pool: seq<T>, seen: seq<T>): seq<T>
  {
    if |pool| == 0 then []
    else if pool[0] in seen then Novel(pool[1..], seen)
    else [pool[0]] + Novel(pool[1..], seen + [pool[0]])
  }

  /** The fill appends exactly the first `top_k - |acc|` novel pool members. */
  lemma {:induction false} FillFromIsNovelPrefix<T>(pool: seq<T>, acc: seq<T>, topK: nat)
    requires |acc| <= topK
    ensures FillFrom(pool, acc, topK) == acc + Take(Novel(pool, acc), topK - |acc|)
  {
    if |pool| == 0 {
      assert acc + [] == acc;
    } else if pool[0] in acc {
      FillFromIsNovelPrefix(pool[1..], acc, topK);
    } else if |acc| < topK {
      var acc' := acc + [pool[0]];
      var rest := Novel(pool[1..], acc');
      FillFromIsNovelPrefix(pool[1..], acc', topK);
      assert Novel(pool, acc) == [pool[0]] + rest;
      assert Take([pool[0]] + rest, topK - |acc|) == [pool[0]] + Take(rest, topK - |acc'|);
    } else {
      assert FillFrom(pool, acc, topK) == acc;
      assert Take(Novel(pool, acc), 0) == [];
    }
  }

  /** Novel members are distinct from each other and from what was seen. */
  lemma {:induction false} NovelIsFresh<T>(pool: seq<T>, seen: seq<T>)
    ensures forall x :: x in Novel(pool, seen) ==> x in pool && x !in seen
    ensures NoRepeats(Novel(pool, seen))
  {
    if |pool| > 0 {
      if pool[0] in seen {
        NovelIsFresh(pool[1..], seen);
      } else {
        var seen' := seen + [pool[0]];
        NovelIsFresh(pool[1..], seen');
        var n := Novel(pool, seen);
        assert n == [pool[0]] + Novel(pool[1..], seen');
        forall i, j | 0 <= i < j < |n|
          ensures n[i] != n[j]
        {
          if i == 0 {
            assert n[j] in Novel(pool[1..], seen');
          } else {
            assert n[i] == Novel(pool[1..], seen')[i - 1];
            assert n[j] == Novel(pool[1..], seen')[j - 1];
          }
        }
      }
    }
  }

  /** With no repeated entry in the subset and none in the rankings, the
      reordered and filled list has no repeated candidate either. */
  lemma ReorderFillDistinct<T>(subset: seq<T>, rankings: seq<nat>, topK: nat)
    requires NoRepeats(subset)
    requires NoRepeats(rankings)
    requires forall j :: 0 <= j < |rankings| ==> rankings[j] < |subset|
    ensures NoRepeats(Fill(subset, ReorderByRankings(subset, rankings, topK), topK))
  {
    var head := ReorderByRankings(subset, rankings, topK);
    var r := Fill(subset, head, topK);
    forall i, j | 0 <= i < j < |r|
      ensures r[i] != r[j]
    {
      if j < |head| {
        assert r[i] == head[i] == subset[rankings[i]];
        assert r[j] == head[j] == subset[rankings[j]];
      } else {
        assert r[i] in r[..j];
      }
    }
  }

  /** The lower bound on the result's length: with no repeated entry in the
      subset, the result holds at least `min(top_k, |subset|)` candidates. */
  lemma FillLength<T>(subset: seq<T>, reranked: seq<T>, topK: nat)
    requires NoRepeats(subset)
    ensures |Fill(subset, reranked, topK)| >= Min(topK, |subset|)
  {
    var r := Fill(subset, reranked, topK);
    if |r| < topK {
      assert forall x :: x in subset ==> x in r;
      DistinctCovered(subset, r);
    }
  }

  /** A sequence covering every member of a repetition-free sequence is at
      least as long. */
  lemma DistinctCovered<T>(s: seq<T>, r: seq<T>)
    requires NoRepeats(s)
    requires forall x :: x in s ==> x in r
    ensures |s| <= |r|
  {
    var elems := set x | x in s;
    DistinctCard(s);
    assert elems <= set x | x in r;
    SetOfSeqCard(r);
    SubsetCard(elems, set x | x in r);
  }

  lemma SubsetCard<T>(a: set<T>, b: set<T>)
    requires a <= b
    ensures |a| <= |b|
    decreases a
  {
    if a != {} {
      var x :| x in a;
      SubsetCard(a - {x}, b - {x});
    }
  }

  lemma {:induction false} DistinctCard<T>(s: seq<T>)
    requires NoRepeats(s)
    ensures |set x | x in s| == |s|
  {
    if |s| > 0 {
      var t := s[..|s| - 1];
      DistinctCard(t);
      assert (set x | x in s) == (set x | x in t) + {s[|s| - 1]};
      assert s[|s| - 1] !in t;
    }
  }

  lemma {:induction false} SetOfSeqCard<T>(s: seq<T>)
    ensures |set x | x in s| <= |s|
  {
    if |s| > 0 {
      var t := s[..|s| - 1];
      SetOfSeqCard(t);
      assert (set x | x in s) == (set x | x in t) + {s[|s| - 1]};
    }
  }
}

=== FILE: rerank.dfy ===
/** The re-ranking entry point (backend/app/services/rag_service.py,
    `RAGReRankingService.rerank`). The language-model call is not modelled:
    `OracleRequest` is the prompt the service would send and `reply` the
    text that came back, `None` standing for any exception raised inside the
    `try` block. */
module RerankService {
  import opened Wrappers
  import opened PyStr
  import opened Candidates
  import opened Prompt
  import opened Rankings
  import opened Reorder

  /** The prompt sent to the oracle, or `None` when `rerank` returns before
      consulting it, which it does exactly for an empty candidate list. */
  function OracleRequest(candidates: seq<Candidate>, context: string, topK: nat): (p: Option<string>)
    ensures p.None? <==> |candidates| == 0
    ensures p.Some? ==> p.value == RankingPrompt(context, ItemsText(CandidateSubset(candidates)), topK)
  {
    if |candidates| == 0 then None
    else Some(RankingPrompt(context, ItemsText(CandidateSubset(candidates)), topK))
  }

  /** An empty candidate list is answered without the oracle: no request
      is built, and the result is empty whatever the reply would have been. */
  lemma EmptyNeedsNoOracle(candidates: seq<Candidate>, context: string, topK: nat,
                           reply1: Option<string>, reply2: Option<string>)
    requires |candidates| == 0
    ensures OracleRequest(candidates, context, topK).None?
    ensures Rerank(candidates, topK, reply1) == Rerank(candidates, topK, reply2) == []
  {
  }

  /** The item block of the request, between the intro and the instruction,
      lists exactly the first `min(|candidates|, 50)` candidates, line `i`
      showing candidate `i` under the number `i + 1`, provided no title or
      excerpt of theirs holds a line break. */
  lemma RequestShowsFirstFifty(candidates: seq<Candidate>, context: string, topK: nat)
    requires |candidates| > 0
    requires forall j :: 0 <= j < Min(|candidates|, MaxCandidates) ==>
               '\n' !in Title(candidates[j]) && '\n' !in Excerpt(candidates[j])
    ensures OracleRequest(candidates, context, topK).Some?
    ensures var lines := Split(ItemBlock(OracleRequest(candidates, context, topK).value, context, topK), '\n');
      && |lines| == Min(|candidates|, MaxCandidates)
      && forall i :: 0 <= i < |lines| ==> lines[i] == ItemLine(i + 1, candidates[i])
  {
    var subset := CandidateSubset(candidates);
    var items := ItemsText(subset);
    var p := OracleRequest(candidates, context, topK).value;
    assert ItemBlock(p, context, topK) == items by {
      assert p == RankingPrompt(context, items, topK);
      PromptItemBlock(context, items, topK);
    }
    assert Split(items, '\n') == ItemLines(subset) by {
      SubsetLinesAreUnbroken(candidates);
      ItemsTextLines(subset);
    }
    var lines := Split(ItemBlock(p, context, topK), '\n');
    assert lines == ItemLines(subset);
    forall i | 0 <= i < |lines|
      ensures lines[i] == ItemLine(i + 1, candidates[i])
    {
      assert subset[i] == candidates[i];
    }
  }

  lemma SubsetLinesAreUnbroken(candidates: seq<Candidate>)
    requires forall j :: 0 <= j < Min(|candidates|, MaxCandidates) ==>
               '\n' !in Title(candidates[j]) && '\n' !in Excerpt(candidates[j])
    ensures forall c :: c in CandidateSubset(candidates) ==> '\n' !in Title(c) && '\n' !in Excerpt(c)
  {
    var subset := CandidateSubset(candidates);
    forall c | c in subset
      ensures '\n' !in Title(c) && '\n' !in Excerpt(c)
    {
      var j :| 0 <= j < |subset| && subset[j] == c;
      assert candidates[j] == c;
    }
  }

  /** The number a line shows is the one the parser reads back as that
      line's subset index: line `i` opens with `str(i + 1) + ". "`, and that
      numeral alone names index `i`. */
  lemma ItemNumberNamesLine(subset: seq<Candidate>, i: nat)
    requires i < |subset|
    ensures var n := NatToString(i + 1);
      && |n| + 2 <= |ItemLines(subset)[i]|
      && ItemLines(subset)[i][..|n| + 2] == n + ". "
      && TokenIndex(n, |subset|) == Some(i)
  {
    var n := NatToString(i + 1);
    var c := subset[i];
    assert ItemLines(subset)[i] == (n + ". ") + (Title(c) + ": " + Excerpt(c));
    NumeralToken(i + 1, |subset|);
  }

  /** The rankings parsed from a reply against the subset of `candidates`;
      the reply is stripped of surrounding whitespace first. */
  function RankingsOf<T>(candidates: seq<T>, text: string): (rankings: seq<nat>)
    ensures forall j :: 0 <= j < |rankings| ==> rankings[j] < |CandidateSubset(candidates)|
  {
    ParseRankings(Strip(text), |CandidateSubset(candidates)|)
  }

  /** `rerank(candidates, context, top_k)` given the oracle's `reply`. The
      context only reaches the prompt, so it is not a parameter here.
      An empty list gives an empty result; a failed call gives the first
      `top_k` of the FULL list; a reply gives at most `top_k` members of the
      first fifty candidates, never fewer than `min(top_k, |subset|)` when
      the subset has no repeated candidate. */
  function Rerank<T(==)>(candidates: seq<T>, topK: nat, reply: Option<string>): (r: seq<T>)
    ensures |candidates| == 0 ==> r == []
    ensures |candidates| > 0 && reply.None? ==> r == candidates[..Min(topK, |candidates|)]
    ensures |r| <= topK
    ensures reply.Some? ==> forall x :: x in r ==> x in candidates[..Min(|candidates|, MaxCandidates)]
  {
    if |candidates| == 0 then []
    else
      match reply
      case None => Take(candidates, topK)
      case Some(text) =>
        var subset := CandidateSubset(candidates);
        var rankings := RankingsOf(candidates, text);
        Fill(subset, ReorderByRankings(subset, rankings, topK), topK)
  }

  /** On a reply, the result opens with the subset members the first
      `min(top_k, |rankings|)` parsed indices name, in that order; the rest
      are the subset members not yet present, in prior order, up to `top_k`. */
  lemma RerankFollowsRankings<T>(candidates: seq<T>, topK: nat, text: string)
    requires |candidates| > 0
    ensures var subset := CandidateSubset(candidates);
      var rankings := RankingsOf(candidates, text);
      var r := Rerank(candidates, topK, Some(text));
      var k := Min(topK, |rankings|);
      && k <= |r|
      && (forall j :: 0 <= j < k ==> r[j] == subset[rankings[j]])
      && r[k..] == Take(Novel(subset, r[..k]), topK - k)
  {
    var subset := CandidateSubset(candidates);
    var head := ReorderByRankings(subset, RankingsOf(candidates, text), topK);
    var r := Rerank(candidates, topK, Some(text));
    assert r == Fill(subset, head, topK);
    RerankHead(candidates, topK, text);
    if |head| < topK {
      FillFromIsNovelPrefix(subset, head, topK);
    }
    assert r[..|head|] == head;
  }

  /** On a reply, the result opens with the subset members the first
      `min(top_k, |rankings|)` parsed indices name, in that order. */
  lemma RerankHead<T>(candidates: seq<T>, topK: nat, text: string)
    requires |candidates| > 0
    ensures var subset := CandidateSubset(candidates);
      var rankings := RankingsOf(candidates, text);
      var r := Rerank(candidates, topK, Some(text));
      var k := Min(topK, |rankings|);
      && k <= |r|
      && forall j :: 0 <= j < k ==> r[j] == subset[rankings[j]]
  {
    var subset := CandidateSubset(candidates);
    var rankings := RankingsOf(candidates, text);
    var head := ReorderByRankings(subset, rankings, topK);
    var r := Rerank(candidates, topK, Some(text));
    assert r == Fill(subset, head, topK);
    assert r[..|head|] == head;
    forall j | 0 <= j < |head|
      ensures r[j] == subset[rankings[j]]
    {
      assert r[j] == head[j];
    }
  }

  /** On a reply and with no repeated candidate among the first fifty, the
      result holds between `min(top_k, |subset|)` and `top_k` candidates. */
  lemma RerankLength<T>(candidates: seq<T>, topK: nat, text: string)
    requires |candidates| > 0
    requires NoRepeats(CandidateSubset(candidates))
    ensures Min(topK, |CandidateSubset(candidates)|) <= |Rerank(candidates, topK, Some(text))| <= topK
  {
    var subset := CandidateSubset(candidates);
    FillLength(subset, ReorderByRankings(subset, RankingsOf(candidates, text), topK), topK);
  }

  /** A reply in the requested format selects the candidates it numbers,
      in its order, ahead of any fill. */
  lemma RerankFollowsReply<T>(candidates: seq<T>, topK: nat, indices: seq<nat>)
    requires |candidates| > 0
    requires |indices| > 0
    requires forall j :: 0 <= j < |indices| ==> indices[j] < Min(|candidates|, MaxCandidates)
    ensures var r := Rerank(candidates, topK, Some(RankingReply(indices)));
      && Min(topK, |indices|) <= |r|
      && forall j :: 0 <= j < Min(topK, |indices|) ==> r[j] == candidates[indices[j]]
  {
    var subset := CandidateSubset(candidates);
    var r := Rerank(candidates, topK, Some(RankingReply(indices)));
    RankingsOfReply(candidates, indices);
    RerankHead(candidates, topK, RankingReply(indices));
    forall j | 0 <= j < Min(topK, |indices|)
      ensures r[j] == candidates[indices[j]]
    {
      assert r[j] == subset[indices[j]];
    }
  }

  /** A reply in the requested format is parsed back to the indices it was
      written from. */
  lemma RankingsOfReply<T>(candidates: seq<T>, indices: seq<nat>)
    requires |indices| > 0
    requires forall j :: 0 <= j < |indices| ==> indices[j] < |CandidateSubset(candidates)|
    ensures RankingsOf(candidates, RankingReply(indices)) == indices
  {
    StripRankingReply(indices);
    ParseRankingReply(indices, |CandidateSubset(candidates)|);
  }

  /** The number printed before an item in the prompt, sent back alone,
      selects that item first. */
  lemma ItemNumberSelectsItem<T>(candidates: seq<T>, topK: nat, i: nat)
    requires i < Min(|candidates|, MaxCandidates)
    requires topK > 0
    ensures var r := Rerank(candidates, topK, Some(NatToString(i + 1)));
      |r| > 0 && r[0] == candidates[i]
  {
    assert RankingReply([i]) == NatToString(i + 1);
    RerankFollowsReply(candidates, topK, [i]);
  }

  /** A reply that orders every candidate of a short list returns exactly
      that order. */
  lemma RerankFullOrder<T>(candidates: seq<T>, topK: nat, indices: seq<nat>)
    requires 0 < |candidates| <= MaxCandidates
    requires |indices| == |candidates| <= topK
    requires NoRepeats(indices)
    requires forall j :: 0 <= j < |indices| ==> indices[j] < |candidates|
    ensures var r := Rerank(candidates, topK, Some(RankingReply(indices)));
      |r| == |indices| && forall j :: 0 <= j < |indices| ==> r[j] == candidates[indices[j]]
  {
    assert CandidateSubset(candidates) == candidates;
    RankingsOfReply(candidates, indices);
    ReorderFullOrder(candidates, indices, topK);
  }

  /** A reply naming only the first candidate keeps the prior order. */
  lemma RerankSingleRanking<T>(candidates: seq<T>, topK: nat, text: string)
    requires |candidates| > 0
    requires NoRepeats(CandidateSubset(candidates))
    requires RankingsOf(candidates, text) == [0]
    ensures Rerank(candidates, topK, Some(text)) == Take(CandidateSubset(candidates), topK)
  {
    var subset := CandidateSubset(candidates);
    var rankings := RankingsOf(candidates, text);
    var a := Min(topK, 1);
    SingleRankingHead(subset, rankings, topK);
    assert Rerank(candidates, topK, Some(text)) == Fill(subset, subset[..a], topK);
    FillFromPrefix(subset, a, topK);
  }

  lemma SingleRankingHead<T>(subset: seq<T>, rankings: seq<nat>, topK: nat)
    requires |subset| > 0 && rankings == [0]
    ensures ReorderByRankings(subset, rankings, topK) == subset[..Min(topK, 1)]
  {
    var head := ReorderByRankings(subset, rankings, topK);
    if topK > 0 {
      assert head[0] == subset[0];
    }
  }

  lemma StripRankingReply(indices: seq<nat>)
    requires |indices| > 0
    ensures Strip(RankingReply(indices)) == RankingReply(indices)
  {
    var ns := Numerals(indices);
    var s := RankingReply(indices);
    JoinEnds(ns, ',');
    var first, last := ns[0], ns[|ns| - 1];
    assert IsDigit(first[0]) && IsDigit(last[|last| - 1]);
    StripUnchanged(s);
  }

  /** With no repeated candidate among the first fifty and a reply whose
      parsed indices do not repeat, no candidate appears twice. */
  lemma RerankDistinct<T>(candidates: seq<T>, topK: nat, text: string)
    requires NoRepeats(CandidateSubset(candidates))
    requires NoRepeats(RankingsOf(candidates, text))
    ensures NoRepeats(Rerank(candidates, topK, Some(text)))
  {
    if |candidates| > 0 {
      var subset := CandidateSubset(candidates);
      ReorderFillDistinct(subset, RankingsOf(candidates, text), topK);
    }
  }

  /** The fallback indices pick the first ten subset members in prior
      order. */
  lemma FallbackPicksLeading<T>(subset: seq<T>)
    ensures Pick(subset, Fallback(|subset|)) == Take(subset, FallbackLength)
  {
    var r := Pick(subset, Fallback(|subset|));
    var k := Min(FallbackLength, |subset|);
    assert |r| == k;
    forall j | 0 <= j < k
      ensures r[j] == subset[j]
    {
      assert Fallback(|subset|)[j] == j;
    }
  }

  /** A reply that names no candidate leaves the first fifty in prior order:
      the fallback indices and the fill together give `subset[:top_k]` when
      the subset has no repeated candidate. */
  lemma RerankUnparseable<T>(candidates: seq<T>, topK: nat, text: string)
    requires |candidates| > 0
    requires NoRepeats(CandidateSubset(candidates))
    requires var tokens := Tokens(Strip(text));
      forall j :: 0 <= j < |tokens| ==> TokenIndex(tokens[j], Min(|candidates|, MaxCandidates)).None?
    ensures Rerank(candidates, topK, Some(text)) == Take(CandidateSubset(candidates), topK)
  {
    var subset := CandidateSubset(candidates);
    var m := |subset|;
    ParseFallsBack(Strip(text), m);
    var rankings := RankingsOf(candidates, text);
    assert rankings == Fallback(m);
    var head := ReorderByRankings(subset, rankings, topK);
    var a := Min(topK, Min(FallbackLength, m));
    assert head == subset[..a] by {
      assert |head| == a;
      forall j | 0 <= j < a
        ensures head[j] == subset[j]
      {
        assert rankings[j] == j;
      }
    }
    FillFromPrefix(subset, a, topK);
  }

  /** Filling after the first `a` members of a repetition-free sequence gives
      its first `top_k`. */
  lemma FillFromPrefix<T>(subset: seq<T>, a: nat, topK: nat)
    requires a <= |subset| && a <= topK
    requires NoRepeats(subset)
    ensures Fill(subset, subset[..a], topK) == Take(subset, topK)
  {
    if a < topK {
      FillFromIsNovelPrefix(subset, subset[..a], topK);
      NovelOfDistinctAfterPrefix(subset, a);
      assert subset[..a] + Take(subset[a..], topK - a) == Take(subset, topK);
    }
  }

  /** The members of a repetition-free sequence not among its first `a` are
      exactly its remaining ones. */
  lemma NovelOfDistinctAfterPrefix<T>(s: seq<T>, a: nat)
    requires a <= |s|
    requires NoRepeats(s)
    ensures Novel(s, s[..a]) == s[a..]
  {
    NovelSkipsSeen(s[..a], s[a..], s[..a]);
    assert s[..a] + s[a..] == s;
    NovelKeepsFresh(s[a..], s[..a]);
  }

  lemma {:induction false} NovelSkipsSeen<T>(q: seq<T>, p: seq<T>, seen: seq<T>)
    requires forall x :: x in q ==> x in seen
    ensures Novel(q + p, seen) == Novel(p, seen)
  {
    if |q| == 0 {
      assert q + p == p;
    } else {
      assert (q + p)[0] == q[0] && (q + p)[1..] == q[1..] + p;
      NovelSkipsSeen(q[1..], p, seen);
    }
  }

  lemma {:induction false} NovelKeepsFresh<T>(p: seq<T>, seen: seq<T>)
    requires NoRepeats(p)
    requires forall x :: x in p ==> x !in seen
    ensures Novel(p, seen) == p
  {
    if |p| > 0 {
      var seen' := seen + [p[0]];
      assert forall x :: x in p[1..] ==> x !in seen' by {
        forall x | x in p[1..]
          ensures x !in seen'
        {
          var k :| 0 <= k < |p[1..]| && p[1..][k] == x;
          assert p[k + 1] == x;
        }
      }
      NovelKeepsFresh(p[1..], seen');
      assert [p[0]] + p[1..] == p;
    }
  }
}

=== FILE: scenarios.dfy ===
/** Concrete replies and candidate lists worked through the model: worked
    examples of the parser, the fallback triggers, and the edge cases where
    the code's behaviour may look unintended. */
module Scenarios {
  import opened Wrappers
  import opened PyStr
  import opened Rankings
  import opened Prompt
  import opened Reorder
  import opened RerankService

  lemma Ex312()
    ensures ParseRankings("3,1,2", 3) == [2, 0, 1]
  {
    assert NatToString(3) == "3" && NatToString(1) == "1" && NatToString(2) == "2";
    assert Numerals([2, 0, 1]) == ["3", "1", "2"];
    assert RankingReply([2, 0, 1]) == "3,1,2";
    ParseRankingReply([2, 0, 1], 3);
  }

  lemma TokensAbc()
    ensures Tokens("abc,,5,1") == ["abc", "", "5", "1"]
  {
    var parts := ["abc", "", "5", "1"];
    assert Join(parts, ',') == "abc,,5,1" by {
      assert Join(parts[3..], ',') == "1";
      assert Join(parts[2..], ',') == "5,1";
      assert Join(parts[1..], ',') == ",5,1";
    }
    assert forall i :: 0 <= i < |parts| ==> ',' !in parts[i];
    TokensOfJoin(parts);
  }

  lemma TokenAbc()
    ensures TokenIndex("abc", 3) == None
  {
    NonNumericToken("abc", 3);
  }

  lemma TokenFive()
    ensures TokenIndex("5", 3) == None
  {
    assert NatToString(5) == "5";
    NumeralToken(5, 3);
  }

  lemma TokenOne()
    ensures TokenIndex("1", 3) == Some(0)
  {
    assert NatToString(1) == "1";
    NumeralToken(1, 3);
  }

  // Several scenarios below take their literal reply as a parameter pinned by
  // a `requires` (`reply == "5"`): stated with the literal inside the ensures,
  // their proofs are much more expensive and unstable across solver seeds.

  /** `int("01") == 1`: the token "01" names the first of three candidates. */
  lemma TokenLeadingZero(token: string)
    requires token == "01"
    ensures TokenIndex(token, 3) == Some(0)
  {
    assert token == "0" + "1";
    LeadingZeroToken("1", 3);
    TokenOne();
  }

  lemma TokenEmpty()
    ensures TokenIndex("", 3) == None
  {
  }

  lemma CollectSkipped(skipped: seq<string>)
    requires skipped == ["abc", "", "5"]
    ensures CollectIndices(skipped, 3) == []
  {
    TokenAbc();
    TokenEmpty();
    TokenFive();
    NoneCollectsNothing(skipped, 3);
  }

  lemma CollectAbc(tokens: seq<string>)
    requires tokens == ["abc", "", "5", "1"]
    ensures CollectIndices(tokens, 3) == [0]
  {
    var skipped, last := tokens[..3], tokens[3..];
    assert tokens == skipped + last;
    CollectSkipped(skipped);
    TokenOne();
    CollectIndicesSingle("1", 3);
    assert last == ["1"];
    CollectIndicesAppend(skipped, last, 3);
  }

  lemma ExAbc()
    ensures ParseRankings("abc,,5,1", 3) == [0]
  {
    TokensAbc();
    CollectAbc(Tokens("abc,,5,1"));
  }

  /** An empty reply names nothing: the fixed fallback, whatever the size. */
  lemma ParseEmptyReply(maxIndex: nat)
    ensures ParseRankings("", maxIndex) == seq(Min(FallbackLength, maxIndex), j => j)
  {
    assert Tokens("") == [""];
    ParseFallsBack("", maxIndex);
  }

  /** A non-numeric reply falls back. */
  lemma ParseWordReply(maxIndex: nat)
    ensures ParseRankings("abc", maxIndex) == seq(Min(FallbackLength, maxIndex), j => j)
  {
    assert Tokens("abc") == ["abc"] by {
      TokensOfJoin(["abc"]);
    }
    NonNumericToken("abc", maxIndex);
    ParseFallsBack("abc", maxIndex);
  }

  /** "0" is a digit string, but item number 0 is index -1: fallback. */
  lemma ParseZeroReply(maxIndex: nat)
    ensures ParseRankings("0", maxIndex) == seq(Min(FallbackLength, maxIndex), j => j)
  {
    assert Tokens("0") == ["0"] by {
      TokensOfJoin(["0"]);
    }
    assert NatToString(0) == "0";
    NumeralToken(0, maxIndex);
    ParseFallsBack("0", maxIndex);
  }

  lemma TokensFive(reply: string)
    requires reply == "5"
    ensures Tokens(reply) == [reply]
  {
    TokensOfJoin([reply]);
  }

  /** "5" against three candidates is out of range: fallback `[0, 1, 2]`. */
  lemma ParseOutOfRangeReply(reply: string)
    requires reply == "5"
    ensures ParseRankings(reply, 3) == [0, 1, 2]
  {
    assert CollectIndices(Tokens(reply), 3) == [] by {
      TokensFive(reply);
      TokenFive();
      NoneCollectsNothing(Tokens(reply), 3);
    }
    FallbackOfThree();
  }

  lemma FallbackOfThree()
    ensures Fallback(3) == [0, 1, 2]
  {
    var r := Fallback(3);
    assert |r| == 3 && r[0] == 0 && r[1] == 1 && r[2] == 2;
  }

  /** Spaces are removed before splitting: "1 0" is item 10, index 9. */
  lemma ParseSpaceInsideNumber(maxIndex: nat)
    requires maxIndex >= 10
    ensures ParseRankings("1 0", maxIndex) == [9]
  {
    assert RemoveSpaces("1 0") == "10";
    assert Tokens("1 0") == ["10"] by {
      SplitNoSeparator("10", ',');
    }
    assert NatToString(10) == "10";
    NumeralNamesIndex(9, maxIndex);
  }

  /** Repeated numbers are kept: "1,1" is `[0, 0]`. */
  lemma ParseRepeatedNumber(maxIndex: nat)
    requires maxIndex >= 1
    ensures ParseRankings("1,1", maxIndex) == [0, 0]
  {
    assert NatToString(1) == "1";
    assert Numerals([0, 0]) == ["1", "1"];
    assert RankingReply([0, 0]) == "1,1";
    ParseRankingReply([0, 0], maxIndex);
  }

  /** The indices the reply "3,1,2" is written from. */
  lemma ThreeOneTwoIndices(reply: string) returns (indices: seq<nat>)
    requires reply == "3,1,2"
    ensures |indices| == 3 && indices[0] == 2 && indices[1] == 0 && indices[2] == 1
    ensures NoRepeats(indices) && forall j :: 0 <= j < |indices| ==> indices[j] < 3
    ensures RankingReply(indices) == reply
  {
    indices := [2, 0, 1];
    assert NatToString(3) == "3" && NatToString(1) == "1" && NatToString(2) == "2";
    assert Numerals(indices) == ["3", "1", "2"];
  }

  /** "3,1,2" against three candidates puts the third first. */
  lemma RerankThreeOneTwo<T>(c: seq<T>, topK: nat, reply: string)
    requires |c| == 3
    requires topK >= 3
    requires reply == "3,1,2"
    ensures Rerank(c, topK, Some(reply)) == [c[2], c[0], c[1]]
  {
    var indices := ThreeOneTwoIndices(reply);
    RerankFullOrder(c, topK, indices);
  }

  /** "abc,,5,1" against three distinct candidates: the first, then the fill
      in prior order. */
  lemma RerankAbcReply<T>(c: seq<T>, topK: nat, reply: string)
    requires |c| == 3
    requires NoRepeats(c)
    requires reply == "abc,,5,1"
    ensures Rerank(c, topK, Some(reply)) == Take(c, topK)
  {
    AbcRankings(c, reply);
    assert CandidateSubset(c) == c;
    RerankSingleRanking(c, topK, reply);
  }

  lemma AbcRankings<T>(c: seq<T>, reply: string)
    requires |c| == 3
    requires reply == "abc,,5,1"
    ensures RankingsOf(c, reply) == [0]
  {
    ExAbc();
    ParseIgnoresSurroundingWhitespace(reply, 3);
    assert CandidateSubset(c) == c;
  }

  /** A reply repeating a number returns the same candidate twice. */
  lemma RerankRepeatsCandidate<T>(c: seq<T>, topK: nat)
    requires |c| >= 1
    requires topK >= 2
    ensures var r := Rerank(c, topK, Some("1,1"));
      |r| >= 2 && r[0] == c[0] && r[1] == c[0]
  {
    assert NatToString(1) == "1";
    assert Numerals([0, 0]) == ["1", "1"];
    assert RankingReply([0, 0]) == "1,1";
    RerankFollowsReply(c, topK, [0, 0]);
  }

  /** With a repeated candidate the result can fall short of
      `min(top_k, |subset|)`: the fill skips the copy. */
  lemma RerankShortWithRepeatedCandidate<T>(x: T, reply: string)
    requires reply == "1"
    ensures Rerank([x, x], 2, Some(reply)) == [x]
  {
    assert RankingReply([0]) == "1" by {
      assert NatToString(1) == "1";
      assert Numerals([0]) == ["1"];
    }
    StripRankingReply([0]);
    ParseRankingReply([0], 2);
    assert CandidateSubset([x, x]) == [x, x];
    assert RankingsOf([x, x], reply) == [0];
    var head := ReorderByRankings([x, x], [0], 2);
    assert head == [x];
    FillCoveredIsNoop([x, x], head, 2);
  }

  /** The failure fallback truncates the full list, so it can return more
      than the fifty candidates a reply can draw from. */
  lemma FailureReturnsBeyondFifty<T>(c: seq<T>)
    requires |c| == 60
    ensures Rerank(c, 60, None) == c
  {
  }
}

=== FILE: wrappers.dfy ===
/** Optional values: `None` stands for an absent value or a call that raised. */
module Wrappers {

  datatype Option<+T> = None | Some(value: T)
}
